=== FILE: README.md ===
# ts-input-validator, modelled in Dafny

A model of the validation engine of ts-input-validator: the per-field evaluator
`Rules` (src/lib/rules.ts) and the batch orchestrator `Validator`
(src/lib/validator.ts), with proofs of what they promise.

`Rules.validate` splits a field's `|`-joined rule string into tokens and resolves
each one against a registry of four rules (`required`, `min`, `max`, `email`),
either as a bare name or in the wildcard form `name:<decimal>`, which binds a
parameter that stays bound for the following tokens. Each rule may mark the
field invalid and overwrite its single message. A token of neither form throws,
and so does a wildcard token naming an unregistered rule. `Validator.validate`
runs one evaluator per field, ORs the failures into one flag, and builds a
key-to-result map filtered and stripped according to a configuration that
`setup` merges and `descruct` resets; configured default messages are injected
into each field with `:attr` replaced by the field's key.

Files:

- `wrappers.dfy` (`Wrappers`): `Option` and `Result`.
- `text.dfy` (`Text`): `indexOf`, a one-character `split` with its inverse
  `Join`, character classes.
- `email.dfy` (`EmailPattern`): the e-mail regular expression as a declarative
  predicate and as a recogniser, proved equivalent.
- `tokens.dfy` (`Tokens`): the registry, the wildcard pattern, token dispatch
  and its inverse `Render`, and `Plan`, which resolves all tokens or stops at
  the first error.
- `rules.dfy` (`Rules`): values, fields and results; the four rules and
  `checkIsNan`; the fold of resolved calls; `Evaluate` and the loop `Validate`.
- `rule_properties.dfy` (`RuleProperties`): whole-rule-string consequences.
- `messages.dfy` (`Messages`): `mutateMessage`, including the `$` patterns of
  JavaScript's `String.prototype.replace`.
- `validator.dfy` (`Validator`): configuration, `setup`, `descruct`,
  `initializeMessage`, and the batch loop `Validate` with its reference fold.

Modelling choices:

- Throwing becomes a `Failure` value: `InvalidFormat(token)` for the explicit
  `Error`, and `UndefinedMethod(name)` for the TypeError raised by calling the
  missing registry entry of an unregistered wildcard name.
- The static, mutable `Validator.config` becomes a `Config` value that `Setup`
  and `Descruct` return and `Validate` takes.
- The wildcard parameter is kept as its captured text (`NumberLiteral`). It is
  compared through its exact decimal value and printed as the text, as the
  template strings do.
- Numbers are exact reals.
- `data` is a `Value`: undefined, null, boolean, number, string, array or
  other object.
- The email rule tests `data` converted to a string. `EmailText` gives that text
  whenever it could possibly match: a string, or an array of one element.
  Every other value coerces to a text with no '@' or with a ','.
- `Validator.Validate` also returns the fields as the caller holds them
  afterwards, since injecting default messages mutates them.
- `Validator.Validate` keeps its loop body in two helper methods, `ValidateOne`
  (inject the defaults, then evaluate the field) and `Store` (strip `data`,
  then write the result when it is to be reported). Their contracts are the
  bookkeeping the loop needs; what the batch promises is stated by
  `Validator.Validate`, `Validator.AnyInvalidSpec` and `Validator.CollectSpec`.

Behaviours of the code that the model keeps:

- `min` and `max` are non-strict. A value or length equal to the limit fails,
  because the code tests `<=` and `>=` (src/lib/rules.ts lines 60-61 and
  76-77).
- A malformed token throws (src/lib/rules.ts line 34). `Validator.validate`
  does not catch it (src/lib/validator.ts lines 20-21), so it aborts the whole
  batch.
- The registry holds exactly the four rules above (src/lib/rules.ts lines
  6-11).
- The result's message is one string, and each failing rule overwrites it.

## Model

| member | source | states |
|---|---|---|
| Text.Split | src/lib/rules.ts:21 | splitting on the bar character never returns zero pieces (an empty string gives one empty piece), no piece holds the separator, and joining the pieces gives the string back |
| Text.SplitJoin | src/lib/rules.ts:21 | splitting a join of separator-free pieces gives back exactly those pieces |
| Tokens.Registered | src/lib/rules.ts:6-11 | the registry lookup finds exactly the four rule names, each to its own rule |
| Tokens.MatchWildcard | src/lib/rules.ts:22 | a token matches `^(\w+):(\d+(\.\d+)?)$` exactly when it is a word name, ':' and a decimal literal, and the captured groups are that name and literal |
| Tokens.Dispatch | src/lib/rules.ts:26-35 | a token resolves to a call only if it is exactly that call's bare name or `name:param` text, and a failure on a missing method means the token is of wildcard form with that unregistered name and is not itself a registered name |
| EmailPattern.IsEmailCorrect | src/lib/rules.ts:88-89 | the recogniser accepts exactly the strings that split as local part, '@', domain, '.', and a top-level domain of two or more letters, over the pattern's character classes |
| Tokens.DispatchRender | src/lib/rules.ts:26-35 | every bare registered name and every `name:<decimal>` with a registered name resolves to that rule, binding that parameter |
| Tokens.DispatchMalformed | src/lib/rules.ts:33-35 | a token throws an invalid-format error naming it exactly when it is neither a registered name nor of wildcard form |
| Tokens.DispatchUnregisteredWildcard | src/lib/rules.ts:30-31 | a wildcard token whose name is not registered fails when the missing method is called |
| Tokens.Plan | src/lib/rules.ts:24-35 | tokens resolve in order: on success one call per token, each what that token dispatches to; on failure the error of the first token that does not resolve; and it succeeds whenever every token resolves |
| Rules.RequiredRule | src/lib/rules.ts:44-53 | `required` fails with 'Field is required' exactly on undefined, null, '' and the empty array, and otherwise leaves the result alone |
| Rules.CheckIsNan | src/lib/rules.ts:96-103 | the parameter reads as NaN exactly when none was ever bound, and then the field fails with '<key> is not a number' |
| Rules.MinRule | src/lib/rules.ts:55-69 | `min` keeps `valid` exactly when a parameter is bound and a number, or a string's length, is above it, and any other data passes once a parameter is bound; a failure writes the not-a-number or 'is smaller than' message |
| Rules.MaxRule | src/lib/rules.ts:71-85 | `max` keeps `valid` exactly when a parameter is bound and a number, or a string's length, is below it, and any other data passes once a parameter is bound; a failure writes the not-a-number or 'is larger than' message |
| Rules.EmailRule | src/lib/rules.ts:87-94 | `email` keeps `valid` exactly when the coerced text matches the declarative e-mail pattern, and otherwise writes '<key> is not a valid email' |
| Rules.Apply | src/lib/rules.ts:44-103 | one rule call leaves `valid` true exactly when it was true and the rule is satisfied (required: not undefined/null/''/[]; min: a parameter is bound and a number or length is above it, any other data passing; max: the same with below; email: the coerced text matches the pattern); a failing rule writes its own message, a passing one keeps the old message |
| Rules.RunCallsParam | src/lib/rules.ts:30-32 | after running calls, the bound parameter is the one bound by the last wildcard token, or the earlier one if none binds |
| Rules.RunCallsKeyData | src/lib/rules.ts:36-37 | once any call ran, the result carries the field's key and data |
| Rules.RunCallsValid | src/lib/rules.ts:49-50 | validity is monotonic: the result is valid exactly when it started valid and every call passes under the parameter in scope at that call |
| Rules.RunCallsMessage | src/lib/rules.ts:64-65 | the message is untouched when every call passes, and otherwise is the message of the last call that fails |
| Rules.Evaluate | src/lib/rules.ts:20-42 | whatever the rule string, a result that comes back carries the field's key and data, and a valid one is exactly `{key, valid: true, message: '', data}` |
| Rules.Validate | src/lib/rules.ts:20-42 | the evaluator loop agrees with `Evaluate`: it throws the first unresolvable token's error, and otherwise returns the folded result carrying the field's key and data |
| RuleProperties.PlanRuleString | src/lib/rules.ts:21-35 | a rule string written from any calls splits back into their tokens and resolves to exactly those calls |
| RuleProperties.EvaluateRuleString | src/lib/rules.ts:20-42 | evaluating a rule string written from calls never throws, is valid exactly when every call passes, keeps the empty message when valid, and otherwise has the last failing call's message |
| RuleProperties.EvaluateThrows | src/lib/rules.ts:24-35 | a rule string throws exactly when one of its tokens cannot be resolved, and then with the first such token's error |
| RuleProperties.EmptyRulesThrow | src/lib/rules.ts:33-35 | an empty rule string throws an invalid-format error for the empty token |
| RuleProperties.SingleCall | src/lib/rules.ts:36-38 | a single-token rule string gives a result that is valid exactly when that rule is satisfied and otherwise carries that rule's message |
| RuleProperties.RequiredAlone | src/lib/rules.ts:44-53 | `required` fails with 'Field is required' exactly on undefined, null, '' and the empty array |
| RuleProperties.MinOnNumber | src/lib/rules.ts:55-69 | `min:N` on a number is valid exactly when the number is above N; a number at or below N fails with '<key> is smaller than N' |
| RuleProperties.MinOnString | src/lib/rules.ts:61 | `min:N` on a string is valid exactly when its length is above N |
| RuleProperties.MaxOnNumber | src/lib/rules.ts:71-85 | `max:N` on a number is valid exactly when the number is below N; a number at or above N fails with '<key> is larger than N' |
| RuleProperties.MaxOnString | src/lib/rules.ts:77 | `max:N` on a string is valid exactly when its length is below N |
| RuleProperties.LimitsIgnoreOtherData | src/lib/rules.ts:60-61 | data that is neither a number nor a string passes `min:N` and `max:N` |
| RuleProperties.BareLimitWithoutParam | src/lib/rules.ts:96-103 | a bare `min` or `max` with no parameter ever bound fails with '<key> is not a number', whatever the data |
| RuleProperties.EmailAlone | src/lib/rules.ts:87-94 | `email` on a string is valid exactly when the string matches the e-mail pattern |
| RuleProperties.ParamCarriesOver | src/lib/rules.ts:30-32 | when `max:N` is followed by a bare `min` token, that `min` reuses N, so no number passes, and the message is that of the rule that failed last |
| Messages.MutateSubstitutesKey | src/lib/validator.ts:55 | every `:attr` is replaced by a key without '$': the text before the first placeholder is copied, whatever colons it holds, and the rest of the message is replaced in turn |
| Messages.MutateAfterColon | src/lib/validator.ts:55 | a colon in front of the placeholder does not stop the substitution: key `name` turns 'Error: :attr' into 'Error: name' |
| Messages.DollarPatternInKey | src/lib/validator.ts:55 | a key holding a '$' pattern is expanded rather than inserted (`$&` puts `:attr` back, `$$` becomes '$') |
| Messages.MutateMessage | src/lib/validator.ts:54-58 | a message without `:attr` comes back unchanged |
| Validator.Setup | src/lib/validator.ts:35-40 | each supplied option replaces the current one and each option left out keeps its value |
| Validator.SetupNothingSupplied | src/lib/validator.ts:35-40 | setup with no option supplied changes nothing |
| Validator.SetupIdempotent | src/lib/validator.ts:35-40 | applying the same setup twice is the same as applying it once |
| Validator.SetupKeepsMessages | src/lib/validator.ts:38 | once default messages are configured, no setup can remove them |
| Validator.Descruct | src/lib/validator.ts:42-44 | the reset configuration is the initial one (data not echoed, only failures reported, no default messages) |
| Validator.InitializeMessage | src/lib/validator.ts:46-52 | the field's own messages are kept; every default rule it has no message for gets the default with `:attr` replaced by the key; with no defaults the field is untouched |
| Validator.InitializeMessageIdempotent | src/lib/validator.ts:46-52 | injecting the same defaults twice adds nothing after the first time |
| Validator.Prepared | src/lib/validator.ts:16-19 | injecting the defaults changes only the field's message map, so the field evaluates as before; its own messages are kept and each missing default is added with `:attr` replaced by the key |
| Validator.AnyInvalidSpec | src/lib/validator.ts:22 | the batch's failure flag is set exactly when some field's result is invalid |
| Validator.CollectSpec | src/lib/validator.ts:25-29 | the map holds a key exactly when some reported field has it, under the result of the last such field, and no result keeps data unless configured |
| Validator.FailedIffSomethingReported | src/lib/validator.ts:27-28 | with only failures reported, the batch is failed exactly when the map is not empty |
| Validator.EveryKeyReported | src/lib/validator.ts:25-26 | with every field reported, the map's keys are exactly the fields' keys |
| Validator.Validate | src/lib/validator.ts:11-33 | a field that throws aborts the batch with the first such error; otherwise the flag, the map's keys, each key's latest result and data stripping are as above, and each field has the defaults injected |

## Left out

- Numbers are exact: NaN, Infinity and floating-point rounding are not modelled. A non-finite or unsafe parameter cannot arise from the wildcard pattern, except for digit strings long enough to round, and that rounding is not modelled.
- String lengths count characters, not UTF-16 code units.
- Registry lookups of names inherited from `Object.prototype` (such as `constructor` or `toString`) are not modelled. The model treats the registry as exactly its four own keys.
- The string conversion that `RegExp.prototype.test` applies to `data` is modelled only as far as `EmailText` says: objects with a custom `toString` and nested arrays are not followed, and a plain object is assumed to print as `[object Object]`. A Symbol makes that conversion throw a TypeError, so `email()` throws on it; symbols are not a `Value` here, so the model has no such error.
- Mutation of shared field objects is not modelled. Examples are two fields that are the same object, or a `message` map shared between fields. Each field is a value here.
- Validator.Validate: when a batch aborts, defaults already injected into earlier fields and into the field that throws stay injected in the caller's objects; the model returns only the error and says nothing about those fields.
- Configuration values other than booleans, such as a truthy non-boolean `returnInvalidOnly`, are not modelled. The `=== false` / `=== true` tests are read as tests on booleans.
- src/test.ts is a console demonstration that uses rules (`password`, `number`, `decimal`, `uuid`, and others) that `Rules` in src/lib/rules.ts does not define. It is not part of this model.
- Keys named `__proto__` (a field key, or a rule name in the default messages) are not modelled: JavaScript's `__proto__` setter makes `allResult[key] = result` and `object.message[prop] = …` change the object's prototype instead of adding a key, so for that key `Validator.CollectSpec` and `Validator.InitializeMessage` describe a plain map the program does not build.
- Validator.InitializeMessage and Validator.Validate: a field whose message map has its own `hasOwnProperty` entry, or has no prototype (`Object.create(null)`), makes the `object.message.hasOwnProperty(prop)` call of src/lib/validator.ts:50 throw a TypeError once default messages are configured, and nothing catches it, so the whole batch aborts. The model's message map is a plain map with no such entries, so it injects the defaults and `Validate` succeeds there.
- src/types is type declarations only; `message` is modelled as a map because that is how validator.ts uses it.
- The email rule's regular expression is written out by hand as the predicate `MatchesEmailPattern` and the recogniser `IsEmail`. The general JavaScript regular-expression engine is not modelled.

=== FILE: email.dfy ===
/** The e-mail shape `^[a-zA-Z0-9._%+-]+@[a-zA-Z0-9.-]+\.[a-zA-Z]{2,}$` used by
    the `email` rule: a declarative reading of the pattern and a hand-written
    recogniser, proved to agree. */
module EmailPattern {
  import opened Text

  /** `[a-zA-Z0-9._%+-]`: a character of the local part. */
  predicate IsLocalChar(c: char) {
    IsAsciiLetter(c) || IsDigit(c) || c == '.' || c == '_' || c == '%' || c == '+' || c == '-'
  }

  /** `[a-zA-Z0-9.-]`: a character of the domain part. */
  predicate IsDomainChar(c: char) {
    IsAsciiLetter(c) || IsDigit(c) || c == '.' || c == '-'
  }

  /** `s` is `local@domain.tld` with the '@' at `at` and the final '.' at `dot`:
      a non-empty local part, a non-empty domain and a top-level domain of at
      least two letters reaching the end of the string. */
  predicate SplitsAsEmail(s: string, at: int, dot: int) {
    && 0 < at && at + 1 < dot && dot + 2 < |s|
    && s[at] == '@' && s[dot] == '.'
    && (forall k :: 0 <= k < at ==> IsLocalChar(s[k]))
    && (forall k :: at < k < dot ==> IsDomainChar(s[k]))
    && (forall k :: dot < k < |s| ==> IsAsciiLetter(s[k]))
  }

  /** The anchored pattern matches `s` (some way of reading it succeeds). */
  ghost predicate MatchesEmailPattern(s: string) {
    exists at, dot :: SplitsAsEmail(s, at, dot)
  }

  /** Recogniser: the '@' must end the longest run of local characters and the
      '.' must start the longest run of trailing letters; the rest is checked
      between them. */
  predicate IsEmail(s: string) {
    var at := PrefixRun(s, IsLocalChar);
    var tld := SuffixRun(s, IsAsciiLetter);
    var dot := |s| - tld - 1;
    && 0 < at < |s| && s[at] == '@'
    && 2 <= tld < |s| && s[dot] == '.'
    && at + 1 < dot
    && forall k :: at < k < dot ==> IsDomainChar(s[k])
  }

  /** The recogniser accepts exactly the strings the pattern matches. */
  lemma IsEmailCorrect(s: string)
    ensures IsEmail(s) <==> MatchesEmailPattern(s)
  {
    var at := PrefixRun(s, IsLocalChar);
    var tld := SuffixRun(s, IsAsciiLetter);
    var dot := |s| - tld - 1;
    if IsEmail(s) {
      assert SplitsAsEmail(s, at, dot);
    }
    if MatchesEmailPattern(s) {
      var at', dot' :| SplitsAsEmail(s, at', dot');
      // '@' is not a local character, so the local run stops exactly at it
      assert !IsLocalChar(s[at']);
      assert at == at';
      // '.' is not a letter, so the trailing letters stop exactly after it
      assert !IsAsciiLetter(s[dot']);
      assert dot == dot';
    }
  }
}

=== FILE: messages.dfy ===
/** `Validator.mutateMessage` (src/lib/validator.ts): `msg.replace(/:attr/g, key)`.
    JavaScript's `replace` reads `$` sequences in the replacement string as
    patterns, so the key is inserted verbatim only when it holds no '$'. */
module Messages {

  /** The placeholder substituted with the field key. */
  const Placeholder: string := ":attr"

  /** The placeholder occurs in `s` at index `i`. */
  predicate PlaceholderAt(s: string, i: int) {
    0 <= i && i + |Placeholder| <= |s| && s[i..i + |Placeholder|] == Placeholder
  }

  /** The placeholder occurs somewhere in `s`. */
  predicate HasPlaceholder(s: string)
    decreases |s|
  {
    |s| > 0 && (PlaceholderAt(s, 0) || HasPlaceholder(s[1..]))
  }

  /** The replacement text for one match (GetSubstitution of the ECMAScript
      standard, for a pattern without capture groups): `$$` is '$', `$&` is the
      matched text, `` $` `` the text before the match, `$'` the text after it;
      any other '$' stands for itself. */
  function Substitution(replacement: string, before: string, after: string): string
    decreases |replacement|
  {
    if |replacement| == 0 then ""
    else if replacement[0] == '$' && |replacement| >= 2 then
      var c := replacement[1];
      if c == '$' then "$" + Substitution(replacement[2..], before, after)
      else if c == '&' then Placeholder + Substitution(replacement[2..], before, after)
      else if c == '`' then before + Substitution(replacement[2..], before, after)
      else if c == '\'' then after + Substitution(replacement[2..], before, after)
      else "$" + Substitution(replacement[1..], before, after)
    else [replacement[0]] + Substitution(replacement[1..], before, after)
  }

  /** A global replace, scanning left to right: `done` is the original text
      already passed over, `rest` the text still to scan. */
  function ReplaceRest(done: string, rest: string, key: string): string
    decreases |rest|
  {
    if |rest| == 0 then ""
    else if PlaceholderAt(rest, 0) then
      Substitution(key, done, rest[|Placeholder|..])
        + ReplaceRest(done + Placeholder, rest[|Placeholder|..], key)
    else [rest[0]] + ReplaceRest(done + [rest[0]], rest[1..], key)
  }

  /** `mutateMessage(key, msg)`; its final `replaced === msg ? msg : replaced`
      returns the same string either way. A message without `:attr` comes back
      unchanged. */
  function MutateMessage(key: string, msg: string): (r: string)
    ensures !HasPlaceholder(msg) ==> r == msg
  {
    var r := ReplaceRest("", msg, key);
    assert !HasPlaceholder(msg) ==> r == msg by {
      if !HasPlaceholder(msg) {
        ReplaceRestNoPlaceholder("", msg, key);
      }
    }
    r
  }

  /** A key without '$' is inserted as it is. */
  lemma {:induction false} SubstitutionVerbatim(key: string, before: string, after: string)
    requires '$' !in key
    ensures Substitution(key, before, after) == key
    decreases |key|
  {
    if |key| > 0 {
      SubstitutionVerbatim(key[1..], before, after);
      assert key == [key[0]] + key[1..];
    }
  }

  /** With a '$'-free key the text already passed over does not matter. */
  lemma {:induction false} ReplaceRestIgnoresDone(d1: string, d2: string, rest: string, key: string)
    requires '$' !in key
    ensures ReplaceRest(d1, rest, key) == ReplaceRest(d2, rest, key)
    decreases |rest|
  {
    if |rest| > 0 {
      if PlaceholderAt(rest, 0) {
        SubstitutionVerbatim(key, d1, rest[|Placeholder|..]);
        SubstitutionVerbatim(key, d2, rest[|Placeholder|..]);
        ReplaceRestIgnoresDone(d1 + Placeholder, d2 + Placeholder, rest[|Placeholder|..], key);
      } else {
        ReplaceRestIgnoresDone(d1 + [rest[0]], d2 + [rest[0]], rest[1..], key);
      }
    }
  }

  /** Text without the placeholder is left exactly as it is. */
  lemma {:induction false} ReplaceRestNoPlaceholder(done: string, rest: string, key: string)
    requires !HasPlaceholder(rest)
    ensures ReplaceRest(done, rest, key) == rest
    decreases |rest|
  {
    if |rest| > 0 {
      ReplaceRestNoPlaceholder(done + [rest[0]], rest[1..], key);
      assert rest == [rest[0]] + rest[1..];
    }
  }

  /** Every `:attr` becomes the key: text up to the first placeholder is
      copied, the placeholder is replaced by a '$'-free key as it is, and
      replacing continues after it. */
  lemma {:induction false} MutateSubstitutesKey(key: string, prefix: string, suffix: string)
    requires '$' !in key && !HasPlaceholder(prefix)
    ensures MutateMessage(key, prefix + Placeholder + suffix) == prefix + key + MutateMessage(key, suffix)
  {
    ReplaceRestPrefix("", key, prefix, suffix);
  }

  lemma {:induction false} ReplaceRestPrefix(done: string, key: string, prefix: string, suffix: string)
    requires '$' !in key && !HasPlaceholder(prefix)
    ensures ReplaceRest(done, prefix + Placeholder + suffix, key) == prefix + key + ReplaceRest("", suffix, key)
    decreases |prefix|
  {
    var s := prefix + Placeholder + suffix;
    if |prefix| == 0 {
      assert s == Placeholder + suffix;
      assert PlaceholderAt(s, 0);
      assert s[|Placeholder|..] == suffix;
      SubstitutionVerbatim(key, done, suffix);
      ReplaceRestIgnoresDone(done + Placeholder, "", suffix, key);
    } else {
      NoMatchBeforePlaceholder(prefix, suffix);
      assert s[1..] == prefix[1..] + Placeholder + suffix;
      assert ReplaceRest(done, s, key) == [s[0]] + ReplaceRest(done + [s[0]], s[1..], key);
      assert !HasPlaceholder(prefix[1..]);
      ReplaceRestPrefix(done + [s[0]], key, prefix[1..], suffix);
      assert prefix == [prefix[0]] + prefix[1..];
    }
  }

  /** A placeholder-free, non-empty prefix puts no match at the front: a match
      there would lie inside the prefix, or begin in it and run into the
      placeholder that follows, whose ':' is only at its start. */
  lemma NoMatchBeforePlaceholder(prefix: string, suffix: string)
    requires |prefix| > 0 && !HasPlaceholder(prefix)
    ensures !PlaceholderAt(prefix + Placeholder + suffix, 0)
  {
    var s := prefix + Placeholder + suffix;
    var n := |Placeholder|;
    if |prefix| >= n {
      assert s[..n] == prefix[..n];
    } else {
      assert s[|prefix|] == ':';
      assert Placeholder[|prefix|] != ':';
    }
  }

  /** A colon in the text before the placeholder does not stop the
      substitution. */
  lemma MutateAfterColon()
    ensures MutateMessage("name", "Error: " + Placeholder) == "Error: name"
  {
    var prefix := "Error: ";
    assert !HasPlaceholder(prefix) by {
      assert !HasPlaceholder(" ");
      assert !HasPlaceholder(": ") by { assert ": "[1..] == " "; }
      assert !HasPlaceholder("r: ") by { assert "r: "[1..] == ": "; }
      assert !HasPlaceholder("or: ") by { assert "or: "[1..] == "r: "; }
      assert !HasPlaceholder("ror: ") by {
        assert "ror: "[1..] == "or: ";
        assert "ror: "[..5] == "ror: " != Placeholder;
      }
      assert !HasPlaceholder("rror: ") by { assert "rror: "[1..] == "ror: "; }
      assert prefix[1..] == "rror: ";
    }
    MutateSubstitutesKey("name", prefix, "");
    assert prefix + Placeholder == prefix + Placeholder + "";
    assert MutateMessage("name", "") == "";
  }

  /** A '$' pattern in the key is expanded rather than inserted: a key `$&`
      puts the placeholder itself back, and `$$` collapses to one '$'. */
  lemma DollarPatternInKey()
    ensures MutateMessage("$&", Placeholder) == Placeholder
    ensures MutateMessage("a$$b", Placeholder) == "a$b"
  {
    assert PlaceholderAt(Placeholder, 0);
    assert Placeholder[|Placeholder|..] == "";
    assert Substitution("$&", "", "") == Placeholder;
    assert Substitution("$$b", "", "") == "$b";
    assert Substitution("a$$b", "", "") == "a$b";
  }
}

=== FILE: rule_properties.dfy ===
/** What `Rules.validate` (src/lib/rules.ts) promises for whole rule strings:
    a string written from resolved calls is evaluated as exactly those calls,
    a malformed string throws, and the single-rule strings behave as the rule
    functions of src/lib/rules.ts compute them, at the boundaries included. */
module RuleProperties {
  import opened Wrappers
  import opened Text
  import opened Tokens
  import opened Rules
  import EmailPattern

  /** The tokens written for the calls, one per call. */
  function Rendered(calls: seq<Call>): (tokens: seq<string>)
    ensures |tokens| == |calls| && forall i :: 0 <= i < |calls| ==> tokens[i] == Render(calls[i])
  {
    seq(|calls|, i requires 0 <= i < |calls| => Render(calls[i]))
  }

  /** The rule string written for the calls: their tokens joined by '|'. */
  function RuleString(calls: seq<Call>): string
    requires |calls| >= 1
  {
    Join(Rendered(calls), '|')
  }

  /** A number literal is digits and at most one point. */
  lemma NumberLiteralHasNoBar(p: NumberLiteral)
    ensures '|' !in p
  {
    match IndexOf(p, '.')
    case None =>
      assert AllDigits(p);
    case Some(k) =>
      assert p == p[..k] + [p[k]] + p[k + 1..];
      assert AllDigits(p[..k]) && AllDigits(p[k + 1..]);
  }

  /** No token written for a call contains the separator. */
  lemma RenderHasNoBar(c: Call)
    ensures '|' !in Render(c)
  {
    match c.bind
    case None =>
    case Some(p) => NumberLiteralHasNoBar(p);
  }

  /** A rule string written from calls splits back into their tokens and
      resolves to exactly those calls. */
  lemma PlanRuleString(calls: seq<Call>)
    requires |calls| >= 1
    ensures Plan(Split(RuleString(calls), '|')) == Success(calls)
  {
    var tokens := Rendered(calls);
    forall i | 0 <= i < |tokens|
      ensures '|' !in tokens[i]
    {
      RenderHasNoBar(calls[i]);
    }
    SplitJoin(tokens, '|');
    forall j | 0 <= j < |tokens|
      ensures Dispatch(tokens[j]) == Success(calls[j])
    {
      DispatchRender(calls[j]);
    }
    PlanAllResolved(tokens, calls);
  }

  /** Evaluating the rule string of some calls never throws; the result carries
      the field's key and data; it is valid exactly when every call passes under
      the parameter in scope at that call; a valid field keeps the empty message,
      and an invalid one has the message of the last call that failed. */
  lemma EvaluateRuleString(key: string, data: Value, calls: seq<Call>)
    requires |calls| >= 1
    ensures Evaluate(key, data, RuleString(calls)).Success?
    ensures var r := Evaluate(key, data, RuleString(calls)).value;
      && r.key == key && r.data == Some(data)
      && (r.valid <==> forall i :: 0 <= i < |calls| ==> CallPasses(data, calls, None, i))
      && (r.valid ==> r.message == "")
      && forall i :: 0 <= i < |calls| && LastFailure(data, calls, None, i) ==>
           r.message == FailureMessage(calls[i].rule, key, ParamAt(calls, None, i))
  {
    PlanRuleString(calls);
    RunCallsKeyData(key, data, calls, Initial);
    RunCallsValid(key, data, calls, Initial);
    RunCallsMessage(key, data, calls, Initial);
  }

  /** A rule string throws exactly when one of its tokens cannot be resolved,
      and then with the error of the first such token. */
  lemma EvaluateThrows(key: string, data: Value, rules: string)
    ensures var tokens := Split(rules, '|');
      Evaluate(key, data, rules).Failure? <==> exists i :: 0 <= i < |tokens| && Dispatch(tokens[i]).Failure?
    ensures var tokens := Split(rules, '|');
      Evaluate(key, data, rules).Failure? ==>
        exists i :: 0 <= i < |tokens| && Dispatch(tokens[i]) == Failure(Evaluate(key, data, rules).error)
                    && forall j :: 0 <= j < i ==> Dispatch(tokens[j]).Success?
  {
    var tokens := Split(rules, '|');
    var plan := Plan(tokens);
    if plan.Success? {
      assert Evaluate(key, data, rules).Success?;
      forall i | 0 <= i < |tokens|
        ensures !Dispatch(tokens[i]).Failure?
      {
        assert Dispatch(tokens[i]).Success?;
      }
    } else {
      assert Evaluate(key, data, rules) == Failure(plan.error);
      var i :| 0 <= i < |tokens| && Dispatch(tokens[i]) == Failure(plan.error)
               && forall j :: 0 <= j < i ==> Dispatch(tokens[j]).Success?;
      assert Dispatch(tokens[i]).Failure?;
      assert exists k :: 0 <= k < |tokens| && Dispatch(tokens[k]).Failure?;
    }
    assert Evaluate(key, data, rules).Failure? <==> exists i :: 0 <= i < |tokens| && Dispatch(tokens[i]).Failure?;
    assert tokens == Split(rules, '|');
  }

  /** An empty rule string splits into one empty token, which is malformed. */
  lemma EmptyRulesThrow(key: string, data: Value)
    ensures Evaluate(key, data, "") == Failure(InvalidFormat(""))
  {
    assert Split("", '|') == [""];
    assert Registered("").None?;
    assert MatchWildcard("").None? by {
      assert forall n, p :: !WildcardForm("", n, p);
    }
  }

  /** A field evaluated under a single call, valid exactly when the call's rule
      is satisfied and otherwise carrying that rule's message. */
  lemma SingleCall(key: string, data: Value, c: Call)
    ensures Evaluate(key, data, Render(c)) ==
      Success(FieldResult(key, Satisfies(c.rule, data, c.bind), if Satisfies(c.rule, data, c.bind) then "" else FailureMessage(c.rule, key, c.bind), Some(data)))
  {
    var calls := [c];
    assert RuleString(calls) == Render(c);
    EvaluateRuleString(key, data, calls);
    assert calls[..1] == calls && calls[..0] == [];
    assert BoundParam(calls[..0], None) == None;
    assert ParamAt(calls, None, 0) == c.bind;
    if !Satisfies(c.rule, data, c.bind) {
      assert LastFailure(data, calls, None, 0);
    }
  }

  /** `required`: valid exactly when the data is not undefined, null, '' or []. */
  lemma RequiredAlone(key: string, data: Value)
    ensures Evaluate(key, data, "required").Success?
    ensures Evaluate(key, data, "required").value.valid <==> !IsEmptyValue(data)
    ensures !IsEmptyValue(data) ==> Evaluate(key, data, "required").value.message == ""
    ensures IsEmptyValue(data) ==> Evaluate(key, data, "required").value.message == "Field is required"
  {
    SingleCall(key, data, Call(Required, None));
  }

  /** `min:<p>` on a number: valid exactly when the number is above the limit;
      the limit itself fails, with the 'smaller than' message. */
  lemma MinOnNumber(key: string, x: real, p: NumberLiteral)
    ensures var valid := x > DecimalValue(p);
      Evaluate(key, Num(x), "min:" + p) ==
        Success(FieldResult(key, valid, if valid then "" else key + " is smaller than " + p, Some(Num(x))))
  {
    var c := Call(Min, Some(p));
    assert Render(c) == "min:" + p;
    SingleCall(key, Num(x), c);
    assert Satisfies(Min, Num(x), Some(p)) == (x > DecimalValue(p));
  }

  /** `min:<p>` on a string: valid exactly when it is longer than the limit. */
  lemma MinOnString(key: string, s: string, p: NumberLiteral)
    ensures var valid := |s| as real > DecimalValue(p);
      Evaluate(key, Str(s), "min:" + p) ==
        Success(FieldResult(key, valid, if valid then "" else key + " is smaller than " + p, Some(Str(s))))
  {
    var c := Call(Min, Some(p));
    assert Render(c) == "min:" + p;
    SingleCall(key, Str(s), c);
    assert Satisfies(Min, Str(s), Some(p)) == (|s| as real > DecimalValue(p));
  }

  /** `max:<p>` on a number: valid exactly when the number is below the limit;
      the limit itself fails, with the 'larger than' message. */
  lemma MaxOnNumber(key: string, x: real, p: NumberLiteral)
    ensures var valid := x < DecimalValue(p);
      Evaluate(key, Num(x), "max:" + p) ==
        Success(FieldResult(key, valid, if valid then "" else key + " is larger than " + p, Some(Num(x))))
  {
    var c := Call(Max, Some(p));
    assert Render(c) == "max:" + p;
    SingleCall(key, Num(x), c);
    assert Satisfies(Max, Num(x), Some(p)) == (x < DecimalValue(p));
  }

  /** `max:<p>` on a string: valid exactly when it is shorter than the limit. */
  lemma MaxOnString(key: string, s: string, p: NumberLiteral)
    ensures var valid := (|s| as real) < DecimalValue(p);
      Evaluate(key, Str(s), "max:" + p) ==
        Success(FieldResult(key, valid, if valid then "" else key + " is larger than " + p, Some(Str(s))))
  {
    var c := Call(Max, Some(p));
    assert Render(c) == "max:" + p;
    SingleCall(key, Str(s), c);
    assert Satisfies(Max, Str(s), Some(p)) == ((|s| as real) < DecimalValue(p));
  }

  /** A bare `min` or `max` with no parameter ever bound fails as not a number,
      whatever the data. */
  lemma BareLimitWithoutParam(key: string, data: Value)
    ensures Evaluate(key, data, "min") == Success(FieldResult(key, false, key + " is not a number", Some(data)))
    ensures Evaluate(key, data, "max") == Success(FieldResult(key, false, key + " is not a number", Some(data)))
  {
    SingleCall(key, data, Call(Min, None));
    SingleCall(key, data, Call(Max, None));
  }

  /** Data that is neither a number nor a string passes `min:<p>` and `max:<p>`. */
  lemma LimitsIgnoreOtherData(key: string, data: Value, p: NumberLiteral)
    requires !data.Num? && !data.Str?
    ensures Evaluate(key, data, "min:" + p) == Success(FieldResult(key, true, "", Some(data)))
    ensures Evaluate(key, data, "max:" + p) == Success(FieldResult(key, true, "", Some(data)))
  {
    var lo, hi := Call(Min, Some(p)), Call(Max, Some(p));
    assert Render(lo) == "min:" + p && Render(hi) == "max:" + p;
    SingleCall(key, data, lo);
    SingleCall(key, data, hi);
  }

  /** `email` on a string: valid exactly when the string matches the pattern. */
  lemma EmailAlone(key: string, s: string)
    ensures Evaluate(key, Str(s), "email").Success?
    ensures Evaluate(key, Str(s), "email").value.valid <==> EmailPattern.MatchesEmailPattern(s)
  {
    var c := Call(Email, None);
    assert Render(c) == "email";
    SingleCall(key, Str(s), c);
    assert EmailText(Str(s)) == Some(s);
    assert Satisfies(Email, Str(s), None) == EmailPattern.MatchesEmailPattern(s);
  }

  /** The parameter stays bound: in `max:<p>|min` the bare `min` reuses `p`, so
      no number passes both, and the message is that of the rule that failed
      last (`min` at the limit itself, where both fail). */
  lemma ParamCarriesOver(key: string, x: real, p: NumberLiteral)
    ensures Evaluate(key, Num(x), "max:" + p + "|min").Success?
    ensures !Evaluate(key, Num(x), "max:" + p + "|min").value.valid
    ensures Evaluate(key, Num(x), "max:" + p + "|min").value.message ==
      if x > DecimalValue(p) then key + " is larger than " + p else key + " is smaller than " + p
  {
    var calls := MaxThenMinCalls(p);
    var data := Num(x);
    EvaluateRuleString(key, data, calls);
    var last := MaxThenMinLastFailure(x, p, calls);
    assert !CallPasses(data, calls, None, last);
  }

  /** Which call of `max:<p>|min` fails last on a number: `max` when the number
      is above the limit, `min` otherwise. */
  lemma MaxThenMinLastFailure(x: real, p: NumberLiteral, calls: seq<Call>) returns (last: nat)
    requires calls == [Call(Max, Some(p)), Call(Min, None)]
    requires ParamAt(calls, None, 0) == Some(p) && ParamAt(calls, None, 1) == Some(p)
    ensures last < 2 && LastFailure(Num(x), calls, None, last)
    ensures calls[last].rule == if x > DecimalValue(p) then Max else Min
  {
    if x > DecimalValue(p) {
      last := 0;
      assert CallPasses(Num(x), calls, None, 1);
    } else {
      last := 1;
    }
  }

  /** The calls of `max:<p>|min`; both run under the parameter `p`. */
  lemma MaxThenMinCalls(p: NumberLiteral) returns (calls: seq<Call>)
    ensures calls == [Call(Max, Some(p)), Call(Min, None)]
    ensures RuleString(calls) == "max:" + p + "|min"
    ensures ParamAt(calls, None, 0) == Some(p) && ParamAt(calls, None, 1) == Some(p)
  {
    calls := [Call(Max, Some(p)), Call(Min, None)];
    var tokens := Rendered(calls);
    assert tokens[0] == "max:" + p && tokens[1] == "min";
    assert Join(tokens[1..], '|') == "min";
    assert calls[..1] == [calls[0]] && calls[..2] == calls;
    assert BoundParam(calls[..1], None) == Some(p);
  }
}

=== FILE: rules.dfy ===
/** The field evaluator `Rules` of src/lib/rules.ts: one field's value is run
    through its rule tokens in order, each registered rule may fail the field
    and overwrite the single message, and a wildcard parameter stays bound
    from one token to the next. Throwing becomes a `Failure` result. */
module Rules {
  import opened Wrappers
  import opened Text
  import opened Tokens
  import EmailPattern

  /** The JavaScript values a field's `data` can hold, as far as the rules tell
      them apart. `Obj` is any other (plain) object. */
  datatype Value =
    | Undefined
    | Null
    | Bool(b: bool)
    | Num(x: real)
    | Str(s: string)
    | Arr(items: seq<Value>)
    | Obj

  /** A field to validate (`validateType`); `message` is the per-rule message map,
      absent until someone sets it. */
  datatype Field = Field(data: Value, key: string, rules: string, message: Option<map<string, string>>)

  /** `validationResult`; `data` is None while the property is absent. */
  datatype FieldResult = FieldResult(key: string, valid: bool, message: string, data: Option<Value>)

  /** The evaluator's mutable state: the result under construction and `this.param`. */
  datatype EvalState = EvalState(result: FieldResult, param: Option<NumberLiteral>)

  /** The state right after the constructor: valid, empty message, no parameter. */
  const Initial: EvalState := EvalState(FieldResult("", true, "", None), None)

  /** The emptiness test of `required`: undefined, null, '' or an empty array. */
  predicate IsEmptyValue(v: Value) {
    v == Undefined || v == Null || v == Str("") || v == Arr([])
  }

  /** The text `RegExp.prototype.test` sees after converting `data` to a string,
      when that text can match the e-mail pattern at all. A string is itself; an
      array of one element is that element's text (null and undefined print as
      ''). Every other value prints without any '@' (numbers, booleans, null,
      undefined, '[object Object]', '') or with a ',' (arrays of two or more),
      so it never matches: None. */
  function EmailText(v: Value): Option<string> {
    match v
    case Str(s) => Some(s)
    case Arr(items) =>
      if |items| == 0 then None
      else if |items| > 1 then None
      else if items[0] == Undefined || items[0] == Null then None
      else EmailText(items[0])
    case _ => None
  }

  /** Whether a rule is satisfied by the data under the parameter in scope. */
  ghost predicate Satisfies(rule: RuleName, data: Value, param: Option<NumberLiteral>) {
    match rule
    case Required => !IsEmptyValue(data)
    case Min =>
      && param.Some?
      && (data.Num? ==> data.x > DecimalValue(param.value))
      && (data.Str? ==> |data.s| as real > DecimalValue(param.value))
    case Max =>
      && param.Some?
      && (data.Num? ==> data.x < DecimalValue(param.value))
      && (data.Str? ==> |data.s| as real < DecimalValue(param.value))
    case Email =>
      EmailText(data).Some? && EmailPattern.MatchesEmailPattern(EmailText(data).value)
  }

  /** The message a failing rule writes. */
  function FailureMessage(rule: RuleName, key: string, param: Option<NumberLiteral>): string {
    match rule
    case Required => "Field is required"
    case Min => if param.None? then key + " is not a number" else key + " is smaller than " + param.value
    case Max => if param.None? then key + " is not a number" else key + " is larger than " + param.value
    case Email => key + " is not a valid email"
  }

  /** Marks the result failed with the given message. */
  function Fail(res: FieldResult, msg: string): FieldResult {
    res.(valid := false, message := msg)
  }

  /** `required()`: fails with 'Field is required' exactly on an empty value;
      otherwise the result is left alone. */
  function RequiredRule(data: Value, res: FieldResult): (r: FieldResult)
    ensures r.valid <==> res.valid && !IsEmptyValue(data)
    ensures r.message == if IsEmptyValue(data) then "Field is required" else res.message
    ensures r.key == res.key && r.data == res.data
  {
    if (data.Arr? && |data.items| == 0) || (data == Undefined || data == Null || data == Str("")) then
      Fail(res, "Field is required")
    else
      res
  }

  /** `checkIsNan()`: the parameter is NaN exactly when none was ever bound, and
      then the field fails with '<key> is not a number'. */
  function CheckIsNan(key: string, param: Option<NumberLiteral>, res: FieldResult): (r: (bool, FieldResult))
    ensures r.0 <==> param.None?
    ensures r.1.valid <==> res.valid && param.Some?
    ensures r.1.message == if param.None? then key + " is not a number" else res.message
    ensures r.1.key == res.key && r.1.data == res.data
  {
    if param.None? then (true, Fail(res, key + " is not a number")) else (false, res)
  }

  /** `min()`: fails on a number or a string length at or below the parameter,
      and when no parameter is bound. */
  function MinRule(key: string, data: Value, param: Option<NumberLiteral>, res: FieldResult): (r: FieldResult)
    ensures r.valid <==> res.valid && Satisfies(Min, data, param)
    ensures r.message == if Satisfies(Min, data, param) then res.message else FailureMessage(Min, key, param)
    ensures r.key == res.key && r.data == res.data
  {
    var (isNan, res) := CheckIsNan(key, param, res);
    if isNan then res
    else
      var limit := DecimalValue(param.value);
      var validated :=
        if data.Num? && data.x <= limit then false
        else if data.Str? && |data.s| as real <= limit then false
        else true;
      if !validated then Fail(res, key + " is smaller than " + param.value) else res
  }

  /** `max()`: fails on a number or a string length at or above the parameter,
      and when no parameter is bound. */
  function MaxRule(key: string, data: Value, param: Option<NumberLiteral>, res: FieldResult): (r: FieldResult)
    ensures r.valid <==> res.valid && Satisfies(Max, data, param)
    ensures r.message == if Satisfies(Max, data, param) then res.message else FailureMessage(Max, key, param)
    ensures r.key == res.key && r.data == res.data
  {
    var (isNan, res) := CheckIsNan(key, param, res);
    if isNan then res
    else
      var limit := DecimalValue(param.value);
      var validated :=
        if data.Num? && data.x >= limit then false
        else if data.Str? && |data.s| as real >= limit then false
        else true;
      if !validated then Fail(res, key + " is larger than " + param.value) else res
  }

  /** `email()`: fails unless the coerced text matches the e-mail pattern. */
  function EmailRule(key: string, data: Value, res: FieldResult): (r: FieldResult)
    ensures r.valid <==> res.valid && Satisfies(Email, data, None)
    ensures r.message == if Satisfies(Email, data, None) then res.message else FailureMessage(Email, key, None)
    ensures r.key == res.key && r.data == res.data
  {
    var text := EmailText(data);
    EmailPattern.IsEmailCorrect(text.GetOr(""));
    if !(text.Some? && EmailPattern.IsEmail(text.value)) then Fail(res, key + " is not a valid email") else res
  }

  /** One registry call. Its effect on the result: `valid` can only go from true
      to false, and only when the rule is not satisfied; a failure overwrites the
      message with the rule's own, a pass leaves the message alone. */
  function Apply(rule: RuleName, key: string, data: Value, param: Option<NumberLiteral>, res: FieldResult): (r: FieldResult)
    ensures r.valid <==> res.valid && Satisfies(rule, data, param)
    ensures r.message == if Satisfies(rule, data, param) then res.message else FailureMessage(rule, key, param)
    ensures r.key == res.key && r.data == res.data
  {
    match rule
    case Required => RequiredRule(data, res)
    case Min => MinRule(key, data, param, res)
    case Max => MaxRule(key, data, param, res)
    case Email => EmailRule(key, data, res)
  }

  /** One iteration of the loop of rules.ts lines 24-39: bind the token's
      parameter if it has one, copy key and data into the result, call the rule. */
  function Step(key: string, data: Value, c: Call, st: EvalState): EvalState {
    var param := if c.bind.Some? then c.bind else st.param;
    var res := st.result.(key := key, data := Some(data));
    EvalState(Apply(c.rule, key, data, param, res), param)
  }

  /** The calls run in order from state `st` (folded from the last call back). */
  function RunCalls(key: string, data: Value, calls: seq<Call>, st: EvalState): EvalState
    decreases |calls|
  {
    if |calls| == 0 then st
    else Step(key, data, calls[|calls| - 1], RunCalls(key, data, calls[..|calls| - 1], st))
  }

  /** The parameter bound after the calls: the last wildcard's, else `p0`. */
  function BoundParam(calls: seq<Call>, p0: Option<NumberLiteral>): Option<NumberLiteral>
    decreases |calls|
  {
    if |calls| == 0 then p0
    else if calls[|calls| - 1].bind.Some? then calls[|calls| - 1].bind
    else BoundParam(calls[..|calls| - 1], p0)
  }

  /** The parameter in scope when call `i` runs: bindings up to and including it. */
  function ParamAt(calls: seq<Call>, p0: Option<NumberLiteral>, i: nat): Option<NumberLiteral>
    requires i < |calls|
  {
    BoundParam(calls[..i + 1], p0)
  }

  /** Call `i` is satisfied by the data. */
  ghost predicate CallPasses(data: Value, calls: seq<Call>, p0: Option<NumberLiteral>, i: nat)
    requires i < |calls|
  {
    Satisfies(calls[i].rule, data, ParamAt(calls, p0, i))
  }

  /** Call `i` fails, and every later call passes: its message is the last one written. */
  ghost predicate LastFailure(data: Value, calls: seq<Call>, p0: Option<NumberLiteral>, i: nat)
    requires i < |calls|
  {
    && !CallPasses(data, calls, p0, i)
    && forall j :: i < j < |calls| ==> CallPasses(data, calls, p0, j)
  }

  /** Extending the calls leaves the parameters and outcomes of the earlier ones alone. */
  lemma PrefixCalls(data: Value, calls: seq<Call>, p0: Option<NumberLiteral>)
    requires |calls| > 0
    ensures forall i :: 0 <= i < |calls| - 1 ==>
      ParamAt(calls, p0, i) == ParamAt(calls[..|calls| - 1], p0, i)
      && CallPasses(data, calls, p0, i) == CallPasses(data, calls[..|calls| - 1], p0, i)
    ensures ParamAt(calls, p0, |calls| - 1) == BoundParam(calls, p0)
  {
    var init := calls[..|calls| - 1];
    forall i | 0 <= i < |calls| - 1
      ensures ParamAt(calls, p0, i) == ParamAt(init, p0, i)
    {
      assert calls[..i + 1] == init[..i + 1];
    }
    assert calls[..|calls|] == calls;
  }

  /** The last call of a run, in terms of the run before it. */
  lemma LastStep(key: string, data: Value, calls: seq<Call>, st: EvalState)
    requires |calls| > 0
    ensures var n := |calls| - 1;
      var mid := RunCalls(key, data, calls[..n], st);
      var last := RunCalls(key, data, calls, st);
      && last.result.valid == (mid.result.valid && CallPasses(data, calls, st.param, n))
      && last.result.message ==
           if CallPasses(data, calls, st.param, n) then mid.result.message
           else FailureMessage(calls[n].rule, key, ParamAt(calls, st.param, n))
  {
    var n := |calls| - 1;
    var mid := RunCalls(key, data, calls[..n], st);
    RunCallsParam(key, data, calls[..n], st);
    assert calls[..n + 1] == calls;
    var p := ParamAt(calls, st.param, n);
    assert p == if calls[n].bind.Some? then calls[n].bind else mid.param;
    assert RunCalls(key, data, calls, st) == Step(key, data, calls[n], mid);
  }

  /** Running calls leaves bound the last parameter a wildcard token bound. */
  lemma {:induction false} RunCallsParam(key: string, data: Value, calls: seq<Call>, st: EvalState)
    ensures RunCalls(key, data, calls, st).param == BoundParam(calls, st.param)
    decreases |calls|
  {
    if |calls| > 0 {
      RunCallsParam(key, data, calls[..|calls| - 1], st);
    }
  }

  /** Once any call ran, the result carries the field's key and data. */
  lemma {:induction false} RunCallsKeyData(key: string, data: Value, calls: seq<Call>, st: EvalState)
    requires |calls| > 0
    ensures RunCalls(key, data, calls, st).result.key == key
    ensures RunCalls(key, data, calls, st).result.data == Some(data)
  {
  }

  /** Every call passes exactly when every call before the last passes in the
      shorter run and the last one passes too. */
  lemma AllPassSnoc(data: Value, calls: seq<Call>, init: seq<Call>, p0: Option<NumberLiteral>)
    requires |calls| > 0 && init == calls[..|calls| - 1]
    ensures (forall i :: 0 <= i < |calls| ==> CallPasses(data, calls, p0, i)) <==>
      (forall i :: 0 <= i < |init| ==> CallPasses(data, init, p0, i)) && CallPasses(data, calls, p0, |init|)
  {
    var n := |calls| - 1;
    PrefixCalls(data, calls, p0);
    if forall i :: 0 <= i < |calls| ==> CallPasses(data, calls, p0, i) {
      forall i | 0 <= i < n
        ensures CallPasses(data, init, p0, i)
      {
        assert CallPasses(data, calls, p0, i);
      }
    }
    if (forall i :: 0 <= i < n ==> CallPasses(data, init, p0, i)) && CallPasses(data, calls, p0, n) {
      forall i | 0 <= i < |calls|
        ensures CallPasses(data, calls, p0, i)
      {
        if i < n {
          assert CallPasses(data, init, p0, i);
        }
      }
    }
  }

  /** A last failure before the final call is a last failure of the shorter run,
      and the final call passes. */
  lemma LastFailureSnoc(data: Value, calls: seq<Call>, p0: Option<NumberLiteral>, i: nat)
    requires i < |calls| - 1 && LastFailure(data, calls, p0, i)
    ensures CallPasses(data, calls, p0, |calls| - 1)
    ensures LastFailure(data, calls[..|calls| - 1], p0, i)
  {
    var n := |calls| - 1;
    PrefixCalls(data, calls, p0);
    assert CallPasses(data, calls, p0, n);
    forall j | i < j < n
      ensures CallPasses(data, calls[..n], p0, j)
    {
      assert CallPasses(data, calls, p0, j);
    }
  }

  /** Validity is monotonic: the field stays valid exactly when it was valid
      and every call passes under the parameter in scope at that call. */
  lemma {:induction false} RunCallsValid(key: string, data: Value, calls: seq<Call>, st: EvalState)
    ensures RunCalls(key, data, calls, st).result.valid <==>
      st.result.valid && forall i :: 0 <= i < |calls| ==> CallPasses(data, calls, st.param, i)
    decreases |calls|
  {
    if |calls| > 0 {
      RunCallsValid(key, data, calls[..|calls| - 1], st);
      LastStep(key, data, calls, st);
      AllPassSnoc(data, calls, calls[..|calls| - 1], st.param);
    }
  }

  /** The message is that of the last failing call, and untouched when none fails. */
  lemma RunCallsMessage(key: string, data: Value, calls: seq<Call>, st: EvalState)
    ensures (forall i :: 0 <= i < |calls| ==> CallPasses(data, calls, st.param, i)) ==>
      RunCalls(key, data, calls, st).result.message == st.result.message
    ensures forall i :: 0 <= i < |calls| && LastFailure(data, calls, st.param, i) ==>
      RunCalls(key, data, calls, st).result.message == FailureMessage(calls[i].rule, key, ParamAt(calls, st.param, i))
  {
    if forall i :: 0 <= i < |calls| ==> CallPasses(data, calls, st.param, i) {
      RunCallsUntouched(key, data, calls, st);
    }
    forall i | 0 <= i < |calls| && LastFailure(data, calls, st.param, i)
      ensures RunCalls(key, data, calls, st).result.message == FailureMessage(calls[i].rule, key, ParamAt(calls, st.param, i))
    {
      RunCallsLastFailure(key, data, calls, st, i);
    }
  }

  /** Calls that all pass leave the message alone. */
  lemma {:induction false} RunCallsUntouched(key: string, data: Value, calls: seq<Call>, st: EvalState)
    requires forall i :: 0 <= i < |calls| ==> CallPasses(data, calls, st.param, i)
    ensures RunCalls(key, data, calls, st).result.message == st.result.message
    decreases |calls|
  {
    if |calls| > 0 {
      AllPassSnoc(data, calls, calls[..|calls| - 1], st.param);
      RunCallsUntouched(key, data, calls[..|calls| - 1], st);
      LastStep(key, data, calls, st);
    }
  }

  /** The message written by the last failing call survives the passing calls after it. */
  lemma {:induction false} RunCallsLastFailure(key: string, data: Value, calls: seq<Call>, st: EvalState, i: nat)
    requires i < |calls| && LastFailure(data, calls, st.param, i)
    ensures RunCalls(key, data, calls, st).result.message == FailureMessage(calls[i].rule, key, ParamAt(calls, st.param, i))
    decreases |calls|
  {
    var n := |calls| - 1;
    LastStep(key, data, calls, st);
    if i < n {
      LastFailureSnoc(data, calls, st.param, i);
      RunCallsLastFailure(key, data, calls[..n], st, i);
      PrefixCalls(data, calls, st.param);
    }
  }

  /** `Rules.validate()`: the resolved calls of the split rule string, run from
      the constructor's state; the first token that cannot be resolved throws.
      Whatever the rule string, a result that comes back carries the field's
      key and data (the split never yields zero tokens, so some rule ran), and
      a valid one is exactly `{key, valid: true, message: '', data}`. */
  function Evaluate(key: string, data: Value, rules: string): (r: Result<FieldResult, RuleError>)
    ensures r.Success? ==> r.value.key == key && r.value.data == Some(data)
    ensures r.Success? && r.value.valid ==> r.value == FieldResult(key, true, "", Some(data))
  {
    match Plan(Split(rules, '|'))
    case Failure(e) => Failure(e)
    case Success(calls) =>
      RunCallsKeyData(key, data, calls, Initial);
      RunCallsValid(key, data, calls, Initial);
      RunCallsMessage(key, data, calls, Initial);
      Success(RunCalls(key, data, calls, Initial).result)
  }

  /** The evaluator as written: a loop over the split tokens that resolves each
      one and runs it before looking at the next. It agrees with `Evaluate`: it
      throws exactly when some token cannot be resolved, with the first such
      token's error, and otherwise returns the folded result, which carries the
      field's key and data. */
  method Validate(f: Field) returns (r: Result<FieldResult, RuleError>)
    ensures r == Evaluate(f.key, f.data, f.rules)
    ensures r.Success? ==> r.value.key == f.key && r.value.data == Some(f.data)
  {
    var rules := Split(f.rules, '|');
    var st := Initial;
    ghost var calls: seq<Call> := [];
    var i := 0;
    while i < |rules|
      invariant 0 <= i <= |rules|
      invariant |calls| == i
      invariant forall j :: 0 <= j < i ==> Dispatch(rules[j]) == Success(calls[j])
      invariant st == RunCalls(f.key, f.data, calls, Initial)
      invariant i > 0 ==> st.result.key == f.key && st.result.data == Some(f.data)
    {
      match Dispatch(rules[i])
      case Failure(e) =>
        PlanStopsAtFirstFailure(rules, i);
        r := Failure(e);
        return;
      case Success(c) =>
        st := Step(f.key, f.data, c, st);
        assert (calls + [c])[..i] == calls;
        calls := calls + [c];
        i := i + 1;
    }
    PlanAllResolved(rules, calls);
    r := Success(st.result);
  }

  /** Plan fails with the error of the first token that does not resolve. */
  lemma PlanStopsAtFirstFailure(tokens: seq<string>, i: nat)
    requires i < |tokens| && Dispatch(tokens[i]).Failure?
    requires forall j :: 0 <= j < i ==> Dispatch(tokens[j]).Success?
    ensures Plan(tokens) == Failure(Dispatch(tokens[i]).error)
  {
    var plan := Plan(tokens);
    assert plan.Failure?;
    var k :| 0 <= k < |tokens| && Dispatch(tokens[k]) == Failure(plan.error)
             && forall j :: 0 <= j < k ==> Dispatch(tokens[j]).Success?;
    assert k == i;
  }

  /** When every token resolves, Plan returns exactly the resolved calls. */
  lemma PlanAllResolved(tokens: seq<string>, calls: seq<Call>)
    requires |calls| == |tokens|
    requires forall j :: 0 <= j < |tokens| ==> Dispatch(tokens[j]) == Success(calls[j])
    ensures Plan(tokens) == Success(calls)
  {
    var plan := Plan(tokens);
    assert plan.Success?;
    assert plan.value == calls;
  }
}

=== FILE: text.dfy ===
/** String helpers with JavaScript's meaning: `indexOf`, `split` on a single
    character, and the character classes the validator's regular expressions use. */
module Text {
  import opened Wrappers

  /** `\d`: an ASCII decimal digit. */
  predicate IsDigit(c: char) {
    '0' <= c <= '9'
  }

  /** `[a-zA-Z]` */
  predicate IsAsciiLetter(c: char) {
    'a' <= c <= 'z' || 'A' <= c <= 'Z'
  }

  /** `\w`: letter, digit or underscore. */
  predicate IsWordChar(c: char) {
    IsAsciiLetter(c) || IsDigit(c) || c == '_'
  }

  predicate AllDigits(s: string) {
    forall i :: 0 <= i < |s| ==> IsDigit(s[i])
  }

  /** The value of a string of decimal digits. */
  function DigitsValue(s: string): nat
    requires AllDigits(s)
  {
    if |s| == 0 then 0
    else DigitsValue(s[..|s| - 1]) * 10 + (s[|s| - 1] as int - '0' as int)
  }

  function Pow10(n: nat): (r: nat)
    ensures r >= 1
  {
    if n == 0 then 1 else 10 * Pow10(n - 1)
  }

  /** `s.indexOf(c)`, with None for -1. */
  function IndexOf(s: string, c: char): (r: Option<nat>)
    ensures r.None? <==> c !in s
    ensures r.Some? ==> r.value < |s| && s[r.value] == c && c !in s[..r.value]
  {
    if |s| == 0 then None
    else if s[0] == c then Some(0)
    else
      match IndexOf(s[1..], c)
      case None => None
      case Some(i) =>
        assert s[..i + 1] == [s[0]] + s[1..][..i];
        Some(i + 1)
  }

  /** The pieces of `s` between the separators, joined back by the separator. */
  function Join(parts: seq<string>, sep: char): string
    requires |parts| >= 1
  {
    if |parts| == 1 then parts[0] else parts[0] + [sep] + Join(parts[1..], sep)
  }

  /** `s.split(sep)` for a one-character separator: never empty (the empty
      string splits into one empty piece), no piece holds the separator,
      and joining the pieces gives `s` back. */
  function Split(s: string, sep: char): (parts: seq<string>)
    ensures |parts| >= 1
    ensures forall i :: 0 <= i < |parts| ==> sep !in parts[i]
    ensures Join(parts, sep) == s
    decreases |s|
  {
    match IndexOf(s, sep)
    case None => [s]
    case Some(i) =>
      var rest := Split(s[i + 1..], sep);
      assert s == s[..i] + [sep] + s[i + 1..];
      assert ([s[..i]] + rest)[1..] == rest;
      [s[..i]] + rest
  }

  /** The other half of the round trip: splitting a join of separator-free
      pieces recovers exactly those pieces, in order. */
  lemma {:induction false} SplitJoin(parts: seq<string>, sep: char)
    requires |parts| >= 1
    requires forall i :: 0 <= i < |parts| ==> sep !in parts[i]
    ensures Split(Join(parts, sep), sep) == parts
    decreases |parts|
  {
    if |parts| > 1 {
      var p := parts[0];
      var tail := Join(parts[1..], sep);
      var s := p + [sep] + tail;
      assert s[|p|] == sep;
      assert s[..|p|] == p;
      assert IndexOf(s, sep) == Some(|p|);
      assert s[|p| + 1..] == tail;
      SplitJoin(parts[1..], sep);
      assert [p] + parts[1..] == parts;
    }
  }

  /** Length of the longest prefix of `s` whose characters all satisfy `p`. */
  function PrefixRun(s: string, p: char -> bool): (n: nat)
    ensures n <= |s|
    ensures forall k :: 0 <= k < n ==> p(s[k])
    ensures n < |s| ==> !p(s[n])
  {
    if |s| == 0 || !p(s[0]) then 0 else 1 + PrefixRun(s[1..], p)
  }

  /** Length of the longest suffix of `s` whose characters all satisfy `p`. */
  function SuffixRun(s: string, p: char -> bool): (n: nat)
    ensures n <= |s|
    ensures forall k :: |s| - n <= k < |s| ==> p(s[k])
    ensures n < |s| ==> !p(s[|s| - 1 - n])
  {
    if |s| == 0 || !p(s[|s| - 1]) then 0 else 1 + SuffixRun(s[..|s| - 1], p)
  }
}

=== FILE: tokens.dfy ===
/** The rule grammar of `Rules.validate` (src/lib/rules.ts): a `|`-joined rule
    string is split into tokens, and each token names a registered rule either
    bare (`min`) or in wildcard form `name:<decimal>` (`min:8`, `max:2.5`). */
module Tokens {
  import opened Wrappers
  import opened Text

  /** The four entries of the method registry `Rules.methods`. */
  datatype RuleName = Required | Min | Max | Email

  /** The registry key of each rule. */
  function RuleText(r: RuleName): string {
    match r
    case Required => "required"
    case Min => "min"
    case Max => "max"
    case Email => "email"
  }

  /** Registry lookup `this.methods[name]`: defined exactly for the four keys. */
  function Registered(name: string): (r: Option<RuleName>)
    ensures r.Some? ==> RuleText(r.value) == name
    ensures forall n: RuleName :: RuleText(n) == name ==> r == Some(n)
  {
    if name == "required" then Some(Required)
    else if name == "min" then Some(Min)
    else if name == "max" then Some(Max)
    else if name == "email" then Some(Email)
    else None
  }

  /** `\d+(\.\d+)?`: digits, optionally followed by a point and more digits. */
  predicate IsNumberLiteral(p: string) {
    match IndexOf(p, '.')
    case None => |p| > 0 && AllDigits(p)
    case Some(k) => 0 < k < |p| - 1 && AllDigits(p[..k]) && AllDigits(p[k + 1..])
  }

  /** A wildcard parameter as captured by the regular expression: its raw text. */
  type NumberLiteral = p: string | IsNumberLiteral(p) witness "0"

  /** The exact value of a parameter; JavaScript compares `data <= param` and
      `length <= param` after converting the captured text to a number. */
  function DecimalValue(p: NumberLiteral): real {
    match IndexOf(p, '.')
    case None => DigitsValue(p) as real
    case Some(k) => DigitsValue(p[..k]) as real + DigitsValue(p[k + 1..]) as real / Pow10(|p| - k - 1) as real
  }

  /** `\w+`: a non-empty run of word characters. */
  predicate IsWordName(n: string) {
    |n| > 0 && forall i :: 0 <= i < |n| ==> IsWordChar(n[i])
  }

  /** Token `t` reads as `name:param` under `^(\w+):(\d+(\.\d+)?)$`. */
  predicate WildcardForm(t: string, name: string, param: string) {
    IsWordName(name) && IsNumberLiteral(param) && t == name + ":" + param
  }

  /** The wildcard regular expression of rules.ts line 22: the two capture groups,
      if the token matches. Since `\w` excludes ':' the name ends at the first ':'. */
  function MatchWildcard(t: string): (r: Option<(string, NumberLiteral)>)
    ensures r.Some? ==> WildcardForm(t, r.value.0, r.value.1)
    ensures forall n, p :: WildcardForm(t, n, p) ==> r == Some((n, p))
  {
    match IndexOf(t, ':')
    case None =>
      assert forall n, p :: !WildcardForm(t, n, p) by {
        forall n, p | WildcardForm(t, n, p) ensures false { WildcardSplit(t, n, p); }
      }
      None
    case Some(c) =>
      var n := t[..c];
      var p := t[c + 1..];
      assert forall n', p' :: WildcardForm(t, n', p') ==> n' == n && p' == p by {
        forall n', p' | WildcardForm(t, n', p') ensures n' == n && p' == p { WildcardSplit(t, n', p'); }
      }
      if IsWordName(n) && IsNumberLiteral(p) then
        assert t == n + ":" + p;
        Some((n, p))
      else
        None
  }

  /** In a wildcard token the name ends at the first ':'. */
  lemma WildcardSplit(t: string, n: string, p: string)
    requires WildcardForm(t, n, p)
    ensures IndexOf(t, ':') == Some(|n|)
    ensures t[..|n|] == n && t[|n| + 1..] == p
  {
    assert t[|n|] == ':';
    assert t[..|n|] == n;
    assert ':' !in n;
  }

  /** One resolved registry call; `bind` is the parameter a wildcard token binds. */
  datatype Call = Call(rule: RuleName, bind: Option<NumberLiteral>)

  /** Why `Rules.validate` throws: a token of neither form (the explicit
      `Error`), or a wildcard token whose name is not registered (calling the
      undefined registry entry raises a TypeError). */
  datatype RuleError = InvalidFormat(token: string) | UndefinedMethod(name: string)

  /** The token written for a call: the inverse of `Dispatch`. */
  function Render(c: Call): string {
    match c.bind
    case None => RuleText(c.rule)
    case Some(p) => RuleText(c.rule) + ":" + p
  }

  /** Resolution of one token, rules.ts lines 26-35: the bare registry lookup wins;
      otherwise the wildcard pattern must match and its name is looked up. A
      token resolves to a call only if it is exactly that call's text, and a
      wildcard token with an unregistered name fails on the call. */
  function Dispatch(t: string): (r: Result<Call, RuleError>)
    ensures r.Success? ==> Render(r.value) == t
    ensures r.Failure? && r.error.UndefinedMethod? ==>
      Registered(t).None? && Registered(r.error.name).None? && exists p :: WildcardForm(t, r.error.name, p)
  {
    match Registered(t)
    case Some(r) => Success(Call(r, None))
    case None =>
      match MatchWildcard(t)
      case None => Failure(InvalidFormat(t))
      case Some((n, p)) =>
        match Registered(n)
        case None => Failure(UndefinedMethod(n))
        case Some(r) => Success(Call(r, Some(p)))
  }

  /** A rule name contains no ':', so its bare form is never a wildcard token. */
  lemma RuleTextHasNoColon(r: RuleName)
    ensures ':' !in RuleText(r)
    ensures IsWordName(RuleText(r))
  {
  }

  /** Dispatch inverts Render: every bare registered name and every
      `name:<decimal>` with a registered name resolves to that very call. */
  lemma DispatchRender(c: Call)
    ensures Dispatch(Render(c)) == Success(c)
  {
    RuleTextHasNoColon(c.rule);
    match c.bind
    case None =>
    case Some(p) =>
      var t := RuleText(c.rule) + ":" + p;
      assert WildcardForm(t, RuleText(c.rule), p);
      assert t[|RuleText(c.rule)|] == ':';
      forall r: RuleName
        ensures RuleText(r) != t
      {
        RuleTextHasNoColon(r);
      }
      assert Registered(t).None?;
      assert MatchWildcard(t) == Some((RuleText(c.rule), p));
      assert Registered(RuleText(c.rule)) == Some(c.rule);
  }

  /** A token is rejected as malformed exactly when it is neither a registered
      name nor of wildcard form; the empty token (what an empty rule string
      splits into) is one of them. */
  lemma DispatchMalformed(t: string)
    ensures Dispatch(t) == Failure(InvalidFormat(t)) <==> Registered(t).None? && forall n, p :: !WildcardForm(t, n, p)
  {
  }

  /** A wildcard token whose name is not in the registry fails on the call. */
  lemma DispatchUnregisteredWildcard(n: string, p: NumberLiteral)
    requires IsWordName(n) && Registered(n).None?
    ensures Dispatch(n + ":" + p) == Failure(UndefinedMethod(n))
  {
    var t := n + ":" + p;
    assert WildcardForm(t, n, p);
    assert t[|n|] == ':';
    forall r: RuleName
      ensures RuleText(r) != t
    {
      RuleTextHasNoColon(r);
    }
  }

  /** The tokens resolved in order, stopping at the first one that fails. */
  function Plan(tokens: seq<string>): (r: Result<seq<Call>, RuleError>)
    ensures r.Success? ==>
      |r.value| == |tokens| && forall i :: 0 <= i < |tokens| ==> Dispatch(tokens[i]) == Success(r.value[i])
    ensures r.Failure? ==>
      exists i :: 0 <= i < |tokens| && Dispatch(tokens[i]) == Failure(r.error)
                  && forall j :: 0 <= j < i ==> Dispatch(tokens[j]).Success?
    ensures r.Success? <==> forall i :: 0 <= i < |tokens| ==> Dispatch(tokens[i]).Success?
  {
    if |tokens| == 0 then Success([])
    else
      match Dispatch(tokens[0])
      case Failure(e) => Failure(e)
      case Success(c) =>
        match Plan(tokens[1..])
        case Failure(e) =>
          var i :| 0 <= i < |tokens[1..]| && Dispatch(tokens[1..][i]) == Failure(e)
                   && forall j :: 0 <= j < i ==> Dispatch(tokens[1..][j]).Success?;
          assert Dispatch(tokens[i + 1]) == Failure(e);
          Failure(e)
        case Success(cs) =>
          Success([c] + cs)
  }
}

=== FILE: validator.dfy ===
/** The batch orchestrator `Validator` of src/lib/validator.ts. Its static,
    mutable `config` becomes an explicit `Config` value: `Setup` and `Descruct`
    return the new configuration and `Validate` takes it as a parameter. */
module Validator {
  import opened Wrappers
  import opened Tokens
  import opened Rules
  import opened Messages

  /** `validatorSetup` as stored: whether results echo `data`, whether only
      failing fields are reported, and default messages to inject. */
  datatype Config = Config(dataInResult: bool, returnInvalidOnly: bool, setMessage: Option<map<string, string>>)

  /** The initializer of the static `config` field. */
  const InitialConfig: Config := Config(false, true, None)

  /** The argument of `setup`: None is an option left undefined (or null). */
  datatype Options = Options(dataInResult: Option<bool>, returnInvalidOnly: Option<bool>, setMessage: Option<map<string, string>>)

  /** What `validate` returns, `[isFail, allResult]`, together with the fields
      as the caller is left holding them (default messages injected). */
  datatype Batch = Batch(failed: bool, results: map<string, FieldResult>, fields: seq<Field>)

  /** `setup`: each option is `supplied ?? current`. */
  function Setup(cfg: Config, opts: Options): (c: Config)
    ensures opts.dataInResult.Some? ==> c.dataInResult == opts.dataInResult.value
    ensures opts.dataInResult.None? ==> c.dataInResult == cfg.dataInResult
    ensures opts.returnInvalidOnly.Some? ==> c.returnInvalidOnly == opts.returnInvalidOnly.value
    ensures opts.returnInvalidOnly.None? ==> c.returnInvalidOnly == cfg.returnInvalidOnly
    ensures opts.setMessage.Some? ==> c.setMessage == opts.setMessage
    ensures opts.setMessage.None? ==> c.setMessage == cfg.setMessage
  {
    Config(
      opts.dataInResult.GetOr(cfg.dataInResult),
      opts.returnInvalidOnly.GetOr(cfg.returnInvalidOnly),
      if opts.setMessage.Some? then opts.setMessage else cfg.setMessage)
  }

  /** `descruct`: the configuration literal it assigns is the initial one. */
  function Descruct(): (c: Config)
    ensures c == InitialConfig
    ensures c.setMessage.None?
  {
    Config(false, true, None)
  }

  /** Setting up twice with the same options changes nothing more. */
  lemma SetupIdempotent(cfg: Config, opts: Options)
    ensures Setup(Setup(cfg, opts), opts) == Setup(cfg, opts)
  {
  }

  /** Options left out never change anything: setup with nothing supplied is the identity. */
  lemma SetupNothingSupplied(cfg: Config)
    ensures Setup(cfg, Options(None, None, None)) == cfg
  {
  }

  /** Once default messages are configured, no later `setup` can remove them:
      only `descruct` does. */
  lemma SetupKeepsMessages(cfg: Config, opts: Options)
    requires cfg.setMessage.Some?
    ensures Setup(cfg, opts).setMessage.Some?
  {
  }

  /** `initializeMessage`: every default message whose rule the field has no
      message for is added, with `:attr` replaced by the field key; the field's
      own messages are kept. With no defaults the field is left untouched (its
      message map stays absent if it was). */
  function InitializeMessage(own: Option<map<string, string>>, key: string, defaults: map<string, string>): (r: Option<map<string, string>>)
    ensures defaults == map[] ==> r == own
    ensures defaults != map[] ==> r.Some? && r.value.Keys == own.GetOr(map[]).Keys + defaults.Keys
    ensures forall rule :: own.Some? && rule in own.value ==> r.Some? && rule in r.value && r.value[rule] == own.value[rule]
    ensures forall rule :: rule in defaults && !(own.Some? && rule in own.value) ==>
      r.Some? && rule in r.value && r.value[rule] == MutateMessage(key, defaults[rule])
  {
    if defaults == map[] then own
    else
      var base := own.GetOr(map[]);
      Some(base + map rule | rule in defaults && rule !in base :: MutateMessage(key, defaults[rule]))
  }

  /** Injecting the same defaults again adds nothing: after one injection every
      default rule has a message of the field's own. */
  lemma InitializeMessageIdempotent(own: Option<map<string, string>>, key: string, defaults: map<string, string>)
    ensures InitializeMessage(InitializeMessage(own, key, defaults), key, defaults) == InitializeMessage(own, key, defaults)
  {
    var once := InitializeMessage(own, key, defaults);
    if defaults != map[] {
      var twice := InitializeMessage(once, key, defaults);
      assert twice.value.Keys == once.value.Keys;
      assert twice.value == once.value;
    }
  }

  /** A field as the loop leaves it: defaults injected when they are configured.
      Only its message map changes, so it evaluates exactly as before; its own
      messages are kept and every configured default it has no message for is
      added with `:attr` replaced by its key. */
  function Prepared(cfg: Config, f: Field): (p: Field)
    ensures p.key == f.key && p.data == f.data && p.rules == f.rules
    ensures Outcome(p) == Outcome(f)
    ensures cfg.setMessage.None? ==> p == f
    ensures forall rule :: f.message.Some? && rule in f.message.value ==>
      p.message.Some? && rule in p.message.value && p.message.value[rule] == f.message.value[rule]
    ensures cfg.setMessage.Some? ==> forall rule :: rule in cfg.setMessage.value && !(f.message.Some? && rule in f.message.value) ==>
      p.message.Some? && rule in p.message.value && p.message.value[rule] == MutateMessage(f.key, cfg.setMessage.value[rule])
  {
    if cfg.setMessage.Some? then f.(message := InitializeMessage(f.message, f.key, cfg.setMessage.value)) else f
  }

  /** The outcome of validating one field on its own. */
  function Outcome(f: Field): Result<FieldResult, RuleError> {
    Evaluate(f.key, f.data, f.rules)
  }

  /** A field's result goes into the map: always, or only when it failed. */
  predicate Included(cfg: Config, res: FieldResult) {
    !cfg.returnInvalidOnly || !res.valid
  }

  /** The result as stored in the map: without `data` unless configured. */
  function Reported(cfg: Config, res: FieldResult): FieldResult {
    if cfg.dataInResult then res else res.(data := None)
  }

  /** Field `i` is stored and no later field among the first `n` overwrites its key. */
  ghost predicate LatestIncluded(cfg: Config, keys: seq<string>, outs: seq<FieldResult>, i: nat)
    requires i < |keys| == |outs|
  {
    && Included(cfg, outs[i])
    && forall j :: i < j < |keys| && keys[j] == keys[i] ==> !Included(cfg, outs[j])
  }

  /** `Validator.validate`: one evaluator per field, in order. A field whose rules
      throw aborts the whole batch with that field's error. Otherwise `failed` is
      set exactly when some field is invalid; the map holds a key exactly when a
      field with that key is stored (every field, or only failing ones), under the
      result of the last such field; `data` is gone from every stored result
      unless configured; and the caller's fields have the defaults injected. */
  method Validate(cfg: Config, fields: seq<Field>) returns (r: Result<Batch, RuleError>)
    ensures r.Success? <==> forall i :: 0 <= i < |fields| ==> Outcome(fields[i]).Success?
    ensures r.Failure? ==> exists i :: 0 <= i < |fields| && Outcome(fields[i]) == Failure(r.error)
                                       && forall j :: 0 <= j < i ==> Outcome(fields[j]).Success?
    ensures r.Success? ==> Aggregated(cfg, Keys(fields), Results(fields), r.value.failed, r.value.results)
    ensures r.Success? ==> |r.value.fields| == |fields|
    ensures r.Success? ==> forall i :: 0 <= i < |fields| ==> r.value.fields[i] == Prepared(cfg, fields[i])
  {
    var allResult: map<string, FieldResult> := map[];
    var isFail := false;
    var prepared: seq<Field> := [];
    ghost var keys: seq<string> := [];
    ghost var outs: seq<FieldResult> := [];
    var i := 0;
    while i < |fields|
      invariant Progress(cfg, fields, i, prepared, keys, outs, isFail, allResult)
    {
      var toBeValidated, outcome := ValidateOne(cfg, fields[i]);
      if outcome.Failure? {
        r := Failure(outcome.error);
        return;
      }
      var result := outcome.value;
      ProgressStep(cfg, fields, i, prepared, keys, outs, isFail, allResult, result);
      if !result.valid {
        isFail := true;
      }
      allResult := Store(cfg, allResult, toBeValidated.key, result);
      prepared := prepared + [toBeValidated];
      keys := keys + [toBeValidated.key];
      outs := outs + [result];
      i := i + 1;
    }
    r := Success(Batch(isFail, allResult, prepared));
    Summarize(cfg, fields, keys, outs);
  }

  /** What the loop keeps after `i` fields: the fields passed so far, prepared;
      their keys and results; the failure flag and the map built from those. */
  ghost predicate Progress(cfg: Config, fields: seq<Field>, i: int, prepared: seq<Field>, keys: seq<string>,
                           outs: seq<FieldResult>, isFail: bool, allResult: map<string, FieldResult>)
  {
    && 0 <= i <= |fields| && |prepared| == i && |keys| == i && |outs| == i
    && (forall j :: 0 <= j < i ==> prepared[j] == Prepared(cfg, fields[j]))
    && (forall j :: 0 <= j < i ==> keys[j] == fields[j].key && Outcome(fields[j]) == Success(outs[j]))
    && isFail == AnyInvalid(outs)
    && allResult == Collect(cfg, keys, outs)
  }

  /** One more field that does not throw keeps the loop's bookkeeping. */
  lemma ProgressStep(cfg: Config, fields: seq<Field>, i: int, prepared: seq<Field>, keys: seq<string>,
                     outs: seq<FieldResult>, isFail: bool, allResult: map<string, FieldResult>, res: FieldResult)
    requires Progress(cfg, fields, i, prepared, keys, outs, isFail, allResult)
    requires i < |fields| && Outcome(fields[i]) == Success(res)
    ensures Progress(cfg, fields, i + 1, prepared + [Prepared(cfg, fields[i])], keys + [fields[i].key], outs + [res],
                     isFail || !res.valid,
                     if Included(cfg, res) then allResult[fields[i].key := Reported(cfg, res)] else allResult)
  {
    var prepared' := prepared + [Prepared(cfg, fields[i])];
    var keys', outs' := keys + [fields[i].key], outs + [res];
    forall j | 0 <= j < i + 1
      ensures prepared'[j] == Prepared(cfg, fields[j])
      ensures keys'[j] == fields[j].key && Outcome(fields[j]) == Success(outs'[j])
    {
      if j < i {
        assert prepared'[j] == prepared[j] && keys'[j] == keys[j] && outs'[j] == outs[j];
      }
    }
    AnyInvalidSnoc(outs, res);
    CollectSnoc(cfg, keys, outs, fields[i].key, res);
  }

  /** Appending one result sets the flag exactly when that result is invalid. */
  lemma AnyInvalidSnoc(outs: seq<FieldResult>, o: FieldResult)
    ensures AnyInvalid(outs + [o]) == (AnyInvalid(outs) || !o.valid)
  {
    assert (outs + [o])[..|outs|] == outs;
  }

  /** Appending one result writes it under its key exactly when it is stored. */
  lemma CollectSnoc(cfg: Config, keys: seq<string>, outs: seq<FieldResult>, k: string, o: FieldResult)
    requires |keys| == |outs|
    ensures Collect(cfg, keys + [k], outs + [o]) ==
      if Included(cfg, o) then Collect(cfg, keys, outs)[k := Reported(cfg, o)] else Collect(cfg, keys, outs)
  {
    assert (keys + [k])[..|keys|] == keys;
    assert (outs + [o])[..|outs|] == outs;
  }

  /** One iteration's evaluation: inject the configured defaults into the field,
      then run its evaluator. */
  method ValidateOne(cfg: Config, f: Field) returns (prepared: Field, outcome: Result<FieldResult, RuleError>)
    ensures prepared == Prepared(cfg, f) && prepared.key == f.key
    ensures outcome == Outcome(f)
  {
    prepared := f;
    if cfg.setMessage.Some? {
      prepared := prepared.(message := InitializeMessage(prepared.message, prepared.key, cfg.setMessage.value));
    }
    outcome := Rules.Validate(prepared);
  }

  /** One iteration's store: strip `data` unless configured, then write the
      result under the key when it is to be reported. */
  method Store(cfg: Config, allResult: map<string, FieldResult>, key: string, res: FieldResult)
    returns (m: map<string, FieldResult>)
    ensures Included(cfg, res) ==> m == allResult[key := Reported(cfg, res)]
    ensures !Included(cfg, res) ==> m == allResult
  {
    var result := res;
    if !cfg.dataInResult {
      result := result.(data := None);
    }
    m := allResult;
    if !cfg.returnInvalidOnly {
      m := m[key := result];
    } else if cfg.returnInvalidOnly && !result.valid {
      m := m[key := result];
    }
  }

  /** What the loop has built, read as the batch-level properties. */
  lemma Summarize(cfg: Config, fields: seq<Field>, keys: seq<string>, outs: seq<FieldResult>)
    requires |keys| == |outs| == |fields|
    requires forall j :: 0 <= j < |fields| ==> keys[j] == fields[j].key && Outcome(fields[j]) == Success(outs[j])
    ensures forall i :: 0 <= i < |fields| ==> Outcome(fields[i]).Success?
    ensures Aggregated(cfg, Keys(fields), Results(fields), AnyInvalid(outs), Collect(cfg, keys, outs))
  {
    assert keys == Keys(fields);
    assert outs == Results(fields);
    AnyInvalidSpec(outs);
    CollectSpec(cfg, keys, outs);
  }

  /** The keys of the fields, in order. */
  function Keys(fields: seq<Field>): (keys: seq<string>)
    ensures |keys| == |fields| && forall i :: 0 <= i < |fields| ==> keys[i] == fields[i].key
  {
    seq(|fields|, i requires 0 <= i < |fields| => fields[i].key)
  }

  /** The result of each field, in order, when none of them throws. */
  function Results(fields: seq<Field>): (outs: seq<FieldResult>)
    requires forall i :: 0 <= i < |fields| ==> Outcome(fields[i]).Success?
    ensures |outs| == |fields| && forall i :: 0 <= i < |fields| ==> Outcome(fields[i]) == Success(outs[i])
  {
    seq(|fields|, i requires 0 <= i < |fields| => Outcome(fields[i]).value)
  }

  /** The failure flag the loop computes: `isFail` set by each invalid result. */
  function AnyInvalid(outs: seq<FieldResult>): bool
    decreases |outs|
  {
    if |outs| == 0 then false else AnyInvalid(outs[..|outs| - 1]) || !outs[|outs| - 1].valid
  }

  /** The map the loop builds: each stored result, data stripped as configured,
      written under its key over whatever an earlier field left there. */
  function Collect(cfg: Config, keys: seq<string>, outs: seq<FieldResult>): map<string, FieldResult>
    requires |keys| == |outs|
    decreases |keys|
  {
    if |keys| == 0 then map[]
    else
      var n := |keys| - 1;
      var before := Collect(cfg, keys[..n], outs[..n]);
      if Included(cfg, outs[n]) then before[keys[n] := Reported(cfg, outs[n])] else before
  }

  /** The batch fails exactly when some result is invalid. */
  lemma {:induction false} AnyInvalidSpec(outs: seq<FieldResult>)
    ensures AnyInvalid(outs) <==> exists j :: 0 <= j < |outs| && !outs[j].valid
    decreases |outs|
  {
    if |outs| > 0 {
      var n := |outs| - 1;
      AnyInvalidSpec(outs[..n]);
      if AnyInvalid(outs[..n]) {
        var j :| 0 <= j < n && !outs[..n][j].valid;
        assert !outs[j].valid;
      }
      if exists j :: 0 <= j < |outs| && !outs[j].valid {
        var j :| 0 <= j < |outs| && !outs[j].valid;
        if j < n {
          assert !outs[..n][j].valid;
        }
      }
    }
  }

  /** What the loop has built from the results `outs` of fields with keys `keys`:
      `failed` is set exactly when some result is invalid; a key is present
      exactly when a field with that key is stored; it maps to the result of
      the last such field; and no stored result keeps `data` unless configured. */
  ghost predicate Aggregated(cfg: Config, keys: seq<string>, outs: seq<FieldResult>, failed: bool, results: map<string, FieldResult>)
    requires |keys| == |outs|
  {
    && (failed <==> exists j :: 0 <= j < |outs| && !outs[j].valid)
    && (forall k :: k in results <==> exists j :: 0 <= j < |keys| && keys[j] == k && Included(cfg, outs[j]))
    && (forall j :: 0 <= j < |keys| && LatestIncluded(cfg, keys, outs, j) ==>
          keys[j] in results && results[keys[j]] == Reported(cfg, outs[j]))
    && (!cfg.dataInResult ==> forall k :: k in results ==> results[k].data.None?)
  }

  /** The map the loop builds has exactly the stored keys, each under the result
      of the last field stored with it, with `data` stripped unless configured. */
  lemma CollectSpec(cfg: Config, keys: seq<string>, outs: seq<FieldResult>)
    requires |keys| == |outs|
    ensures forall k :: k in Collect(cfg, keys, outs) <==>
      exists j :: 0 <= j < |keys| && keys[j] == k && Included(cfg, outs[j])
    ensures forall j :: 0 <= j < |keys| && LatestIncluded(cfg, keys, outs, j) ==>
      keys[j] in Collect(cfg, keys, outs) && Collect(cfg, keys, outs)[keys[j]] == Reported(cfg, outs[j])
    ensures !cfg.dataInResult ==> forall k :: k in Collect(cfg, keys, outs) ==> Collect(cfg, keys, outs)[k].data.None?
  {
    forall k
      ensures k in Collect(cfg, keys, outs) <==> exists j :: 0 <= j < |keys| && keys[j] == k && Included(cfg, outs[j])
    {
      CollectKey(cfg, keys, outs, k);
    }
    forall j | 0 <= j < |keys| && LatestIncluded(cfg, keys, outs, j)
      ensures keys[j] in Collect(cfg, keys, outs) && Collect(cfg, keys, outs)[keys[j]] == Reported(cfg, outs[j])
    {
      CollectLatest(cfg, keys, outs, j);
    }
    if !cfg.dataInResult {
      forall k | k in Collect(cfg, keys, outs)
        ensures Collect(cfg, keys, outs)[k].data.None?
      {
        CollectStripped(cfg, keys, outs, k);
      }
    }
  }

  /** A key is in the map exactly when some stored field has it. */
  lemma {:induction false} CollectKey(cfg: Config, keys: seq<string>, outs: seq<FieldResult>, k: string)
    requires |keys| == |outs|
    ensures k in Collect(cfg, keys, outs) <==> exists j :: 0 <= j < |keys| && keys[j] == k && Included(cfg, outs[j])
    decreases |keys|
  {
    if |keys| > 0 {
      var n := |keys| - 1;
      var keys0, outs0 := keys[..n], outs[..n];
      CollectKey(cfg, keys0, outs0, k);
      if k in Collect(cfg, keys0, outs0) {
        var j :| 0 <= j < n && keys0[j] == k && Included(cfg, outs0[j]);
        assert keys[j] == k && Included(cfg, outs[j]);
      }
      if exists j :: 0 <= j < |keys| && keys[j] == k && Included(cfg, outs[j]) {
        var j :| 0 <= j < |keys| && keys[j] == k && Included(cfg, outs[j]);
        if j < n {
          assert keys0[j] == k && Included(cfg, outs0[j]);
        }
      }
    }
  }

  /** A stored field that no later stored field overwrites has its result in the map. */
  lemma {:induction false} CollectLatest(cfg: Config, keys: seq<string>, outs: seq<FieldResult>, j: nat)
    requires j < |keys| == |outs| && LatestIncluded(cfg, keys, outs, j)
    ensures keys[j] in Collect(cfg, keys, outs) && Collect(cfg, keys, outs)[keys[j]] == Reported(cfg, outs[j])
    decreases |keys|
  {
    var n := |keys| - 1;
    var keys0, outs0 := keys[..n], outs[..n];
    if j < n {
      forall l | j < l < n && keys0[l] == keys0[j]
        ensures !Included(cfg, outs0[l])
      {
        assert keys[l] == keys0[l] && outs[l] == outs0[l];
      }
      assert LatestIncluded(cfg, keys0, outs0, j);
      CollectLatest(cfg, keys0, outs0, j);
      assert keys[n] == keys[j] ==> !Included(cfg, outs[n]);
    }
  }

  /** Unless configured, no result in the map keeps its data. */
  lemma {:induction false} CollectStripped(cfg: Config, keys: seq<string>, outs: seq<FieldResult>, k: string)
    requires |keys| == |outs| && !cfg.dataInResult && k in Collect(cfg, keys, outs)
    ensures Collect(cfg, keys, outs)[k].data.None?
    decreases |keys|
  {
    var n := |keys| - 1;
    var keys0, outs0 := keys[..n], outs[..n];
    if k != keys[n] || !Included(cfg, outs[n]) {
      CollectStripped(cfg, keys0, outs0, k);
    }
  }

  /** With only failing fields reported (the default), the batch is marked
      failed exactly when the map is not empty. */
  lemma FailedIffSomethingReported(cfg: Config, keys: seq<string>, outs: seq<FieldResult>)
    requires |keys| == |outs| && cfg.returnInvalidOnly
    ensures AnyInvalid(outs) <==> Collect(cfg, keys, outs) != map[]
  {
    AnyInvalidSpec(outs);
    CollectSpec(cfg, keys, outs);
    if AnyInvalid(outs) {
      var j :| 0 <= j < |outs| && !outs[j].valid;
      assert keys[j] in Collect(cfg, keys, outs);
    }
    if Collect(cfg, keys, outs) != map[] {
      var k :| k in Collect(cfg, keys, outs);
      var j :| 0 <= j < |keys| && keys[j] == k && Included(cfg, outs[j]);
      assert !outs[j].valid;
    }
  }

  /** With every field reported, the map holds exactly the fields' keys. */
  lemma EveryKeyReported(cfg: Config, keys: seq<string>, outs: seq<FieldResult>)
    requires |keys| == |outs| && !cfg.returnInvalidOnly
    ensures Collect(cfg, keys, outs).Keys == set j | 0 <= j < |keys| :: keys[j]
  {
    CollectSpec(cfg, keys, outs);
  }
}

=== FILE: wrappers.dfy ===
/** An optional value and a value-or-error result, the latter the model's
    stand-in for thrown exceptions. */
module Wrappers {

  datatype Option<+T> = None | Some(value: T) {

    /** Returns the value or the given default; JavaScript's `??`. */
    function GetOr(default: T): T {
      match this
      case Some(v) => v
      case None => default
    }
  }

  datatype Result<+R, +E> = Success(value: R) | Failure(error: E)
}
